=== FILE: README.md ===
# serpentine: movement and decision core of a Pommerman agent

This project models the decision core of the `serpentine` Pommerman agent and proves properties of it. The core has four parts:

- **Direction vocabulary.** There are four unit moves (left, right, up, down) and a zero move. Each has a name, a displacement and the action that performs it. `reverse` maps a move to its opposite. The table exists twice in the source, in `serpentine/utils/directions.py` and in `serpentine/my_agent.py`. Both copies are the same, so it is defined once here (`Directions`).
- **Passability and reverse breadth-first search** (`MyAgent.check_direction_passable` and `MyAgent.can_move_to`). The search starts at the goal and expands outwards over passable cells. When it finds a cell next to the agent, it returns the step from the agent onto that cell. It returns the zero move when the agent is already on the goal or the goal cannot be reached (`Passability`, `Routes`, `ReverseSearch`).
- **Bomb gate and action queue** (`MyAgent.can_place_bomb` and `MyAgent.act`). `act` plans only when its queue is empty. It queues Bomb when a bomb may be placed, then always queues the move towards the fixed goal `(2, 2)`. Each call pops one action (`Agent`).
- **Step-wise search in `PathFinder.bfs_generator`.** This is a generator over a queue, a visited list and a trail of directions. It is modelled as a state machine: `Tick` runs one step of the generator body, and `Next` resumes it up to its next `yield` (`PathFinding`).

Positions are integer pairs. The board is a `seq<seq<Item>>`, where an `Item` is either `Passage` or some other pommerman item. The numeric item codes do not matter here. `bomb_life` is a `seq<seq<int>>`. Actions form an enumeration. Objects with mutable fields are modelled as immutable values, and their methods as functions from the old state to the new state.

The main result is `ReverseSearch.CanMoveTo`. Suppose the agent is not on the goal. Then the returned direction is non-zero exactly when some route reaches the goal. A route here means unit steps whose intermediate cells are in bounds and are passages. A non-zero result is the first step of a shortest such route. The proof gives each queue entry a ghost label: the number of steps from that entry to the goal. It relies on four invariants:
- labels along the queue never decrease and span at most one;
- each queued cell has a route of its label's length;
- a visited cell's neighbours are never the agent;
- a passable neighbour of a visited cell is either visited or queued, with a label at most one higher.

The source expands a dequeued point even when it was visited before, so a cell can be on the queue several times. The search still terminates. The termination measure is the number of unvisited cells in the grid and the goal, followed by a queue weight: 5 for an entry already visited and 1 for a fresh one.

Facts about the code that the model keeps:
- `reverse` has no entry for the zero direction, so `reverse(ZERO)` raises `KeyError`.
- The bounds tests use the literals `10` (`check_direction_passable`) and `7` (`is_on_grid`).
- The goal of `act` is the literal `(2, 2)`.
- The bomb gate tests only the bomb timer at the agent's cell and the ammo count.
- Once `bfs_generator` leaves its loop it has returned, and it never yields again, whatever the caller appends to `to_visit`.

## Model

| member | source | states |
|---|---|---|
| `Directions.Reverse` | serpentine/utils/directions.py:24-28 | The reverse of a move is one of the four moves, and its displacement is the negation of the move's displacement. |
| `Directions.ReverseIsLookup` | serpentine/utils/directions.py:27-28 | The dictionary lookup by name fails (the `KeyError`) exactly for the zero direction. For every other direction it returns `Reverse`. |
| `Directions.ReverseSwaps` | serpentine/utils/directions.py:24-28 | Left and right reverse to each other, and so do up and down. |
| `Directions.ReverseInvolution` | serpentine/utils/directions.py:27-28 | Reversing a move twice gives the move back. |
| `Directions.AllDistinctUnitMoves` | serpentine/utils/directions.py:17-21 | `ALL` is left, right, up, down in that order. It excludes zero, and its entries are four distinct unit displacements. |
| `Directions.ZeroStandsStill` | serpentine/utils/directions.py:22 | The zero direction has displacement (0, 0), leaves a position unchanged, and its action is Stop. |
| `Directions.StepBack` | serpentine/utils/directions.py:17-20 | Stepping by a move and then by its reverse returns to the start. |
| `Passability.CheckDirectionPassable` | serpentine/my_agent.py:61-79 | True exactly when `location + direction` has both coordinates in 0..10 and that board cell is a passage. False for any off-board target. |
| `ReverseSearch.Scan` | serpentine/my_agent.py:94-108 | Stops at the first neighbour that is the agent. Otherwise it appends every unvisited, passable neighbour and nothing else: no visited cell is enqueued. It appends at most four entries, keeps the existing queue as a prefix, and no neighbour is the agent. |
| `ReverseSearch.Search` | serpentine/my_agent.py:91-111 | An exhausted queue gives the zero direction. A non-zero answer is one of the four moves, and it leads onto a cell of the searched region (the grid or the goal). |
| `ReverseSearch.SearchStepDecreases` | serpentine/my_agent.py:91-110 | Each round of the outer loop lowers the measure (unvisited cells, then queue weight), so the search terminates. |
| `ReverseSearch.CanMoveTo` | serpentine/my_agent.py:81-111 | Zero when the agent is on the goal. Otherwise non-zero exactly when the goal is reachable. A non-zero result is a move whose target is the goal or a passable cell, and it is the first step of a shortest route. |
| `ReverseSearch.SearchCorrect` | serpentine/my_agent.py:91-111 | From any state satisfying the search invariant, the loop's answer is zero only if the goal is unreachable. A non-zero answer is the first step of a shortest route. |
| `ReverseSearch.StepPreservesInv` | serpentine/my_agent.py:91-110 | One dequeue-scan-mark round keeps the invariant: labels stay sorted, every entry has a route, and the closure of visited cells holds. |
| `ReverseSearch.FoundIsShortest` | serpentine/my_agent.py:98-100 | When the agent is next to the expanded head of the queue, the reversed direction steps onto that head. That step starts a route of minimum length. |
| `ReverseSearch.ExhaustedMeansUnreachable` | serpentine/my_agent.py:91-111 | An empty queue with the invariant in place means no route from the agent reaches the goal. |
| `Agent.CanPlaceBomb` | serpentine/my_agent.py:113-124 | True exactly when the bomb timer at the agent's cell is 0 and ammo is positive. |
| `Agent.Plan` | serpentine/my_agent.py:40-57 | The planned queue is never empty, so the Stop fallback is unreachable. It starts with Bomb exactly when a bomb may be placed, and has two entries exactly then. It always ends with the move towards the goal. |
| `Agent.MoveIsNotBomb` | serpentine/my_agent.py:48-49 | The queued move is never the Bomb action. |
| `Agent.Act` | serpentine/my_agent.py:38-59 | With a non-empty queue, `act` returns the head and keeps the rest in order. With an empty queue, it returns Bomb exactly when a bomb may be placed and leaves the move queued; otherwise it returns the move and leaves the queue empty. |
| `Agent.DrainIgnoresObservations` | serpentine/my_agent.py:40-59 | While the queue lasts, successive calls return its entries in order, whatever valid observations they receive. No re-planning happens. |
| `Agent.ReplanAfterDrain` | serpentine/my_agent.py:40-59 | After as many calls as the queue had entries, the next call plans afresh from its own observation. |
| `PathFinding.Reset` | serpentine/utils/pathfinder.py:11-14 | The queue, the visited list and the trail are all empty afterwards. |
| `PathFinding.IsOnGrid` | serpentine/utils/pathfinder.py:16-19 | True exactly when both coordinates lie in 0..7. |
| `PathFinding.Start` | serpentine/utils/pathfinder.py:26-28 | After start-up the queue is `[start]`, nothing is visited, and the trail maps only the start, to no direction. The generator invariant holds. |
| `PathFinding.Tick` | serpentine/utils/pathfinder.py:29-37 | One step keeps the invariant: no point is expanded twice, and each trail direction leads from an expanded point. Between points, a non-empty queue loses exactly its front; that front is expanded from the first direction when unvisited and skipped otherwise. During an expansion the queue is untouched. Each step tries the next direction: the neighbour is yielded exactly when it is on the grid and unvisited, and the trail then records the direction just tried at that neighbour and changes nowhere else. After the fourth direction the point is appended to `visited` and the generator goes back between points; `visited` never changes otherwise. The generator returns exactly when it finds the queue empty between points, and a returned generator stays as it is. |
| `PathFinding.Next` | serpentine/utils/pathfinder.py:21-37 | Resuming to the next yield keeps the invariant and, when it yields, lowers the measure of work left. No yield means the generator has returned. |
| `PathFinding.NextResumes` | serpentine/utils/pathfinder.py:21-37 | A resume only drops entries from the front of the queue, never adds one, and only grows `visited`. The point being expanded afterwards is the one expanded before or was taken from the queue. The trail changes only at the yielded point. That point is on the grid, unvisited, and recorded with the direction that reached it from the point being expanded. No yield means the loop just found the queue empty, or the generator had already returned and is left unchanged. |
| `PathFinding.ResumeYieldsFirstFresh` | serpentine/utils/pathfinder.py:32-36 | Resumed while expanding a point, the generator yields the neighbour in the first remaining direction of `ALL` that is on the grid and unvisited, and pauses after that direction. |
| `PathFinding.ResumeFinishesExpansion` | serpentine/utils/pathfinder.py:32-37 | Resumed while expanding a point with no on-grid unvisited neighbour left, the generator marks the point visited and goes on with the queue. |
| `PathFinding.ResumeDequeues` | serpentine/utils/pathfinder.py:29-31 | Resumed between points with a non-empty queue, the generator dequeues the front and expands it from the first direction, or skips it when it was expanded before. |
| `PathFinding.StoppedStaysStopped` | serpentine/utils/pathfinder.py:29-37 | After the generator has returned, a point appended to `to_visit` by the caller does not make it yield again. |
| `PathFinding.StartYieldsNeighbours` | serpentine/utils/pathfinder.py:26-37 | Without pushes by the caller, the generator yields exactly the on-grid neighbours of the start, in the order left, right, up, down, and then stops. |

## Left out

- `serpentine/run.py` (environment bootstrap, rendering, the episode loop and printing) is not part of this model. It is glue over the pommerman library.
- The pommerman library types (`BaseAgent`, `characters`, `Action`, `Item`, `BOARD_SIZE`) are not part of this model. Actions are an enumeration and board cells are `Passage` or another item, because their numeric values are not used.
- The unused `action_space` argument of `act` is dropped.
- `Covers` and `ValidObs` state what the source silently assumes of an observation. The board has rows and columns 0..10, and `bomb_life` has an entry at the agent's position. Otherwise numpy would raise `IndexError`, or wrap a negative index.
- `pathfinder.py` never imports `deque` or `Dict` (lines 7 and 9), so constructing a `PathFinder` raises `NameError` as written. The model gives the intended semantics: a FIFO queue and a dictionary.
- Python runs a generator's prologue (`reset`, queueing the start) only on the first resume. `Start` models that prologue directly. Pushes made before the first resume, which `reset` would discard, are not modelled.
- The caller of `bfs_generator` may also change `visited` or `trail` between yields. Only pushes onto the queue (`Push`) are modelled.
- `visited` in `can_move_to` is a list that may hold duplicates. It is modelled as a set, because the code only tests membership.
- Directions.Reverse: requires a non-zero direction rather than modelling the `KeyError`. The failing lookup itself is modelled by `ReverseByName` and stated in `ReverseIsLookup`.

=== FILE: actions.dfy ===
/**
  The pommerman action vocabulary (`pommerman.constants.Action`).  Its numeric
  codes are not needed by the agent, so the actions are an enumeration.
 */
module Actions {

  datatype Action = Stop | Up | Down | Left | Right | Bomb

}

=== FILE: agent.dfy ===
/**
  `MyAgent`: the bomb gate `can_place_bomb` and the action queue that `act`
  fills when it is empty and drains one action per call.
 */
module Agent {

  import opened Geometry
  import opened Directions
  import opened Passability
  import opened ReverseSearch
  import opened Actions

  /** The goal `act` walks towards; a literal `(2, 2)` in the source. */
  const Goal: Pos := Pos(2, 2)

  /**
    The parts of the observation `act` reads: the agent's `position`, the
    `board`, the `bomb_life` timers (indexed like the board) and `ammo`.
   */
  datatype Obs = Obs(position: Pos, board: Board, bombLife: seq<seq<int>>, ammo: int)

  /** `bomb_life` has a timer at the agent's position. */
  predicate HasTimerAt(bombLife: seq<seq<int>>, p: Pos)
  {
    0 <= p.row < |bombLife| && 0 <= p.col < |bombLife[p.row]|
  }

  /** An observation `act` can plan on without an indexing error. */
  predicate ValidObs(obs: Obs)
  {
    Covers(obs.board) && HasTimerAt(obs.bombLife, obs.position)
  }

  /**
    `can_place_bomb`: no bomb is ticking on the agent's cell and there is
    ammunition left.
   */
  function CanPlaceBomb(bombLife: seq<seq<int>>, ammo: int, my: Pos): (r: bool)
    requires HasTimerAt(bombLife, my)
    ensures r <==> bombLife[my.row][my.col] == 0 && ammo > 0
  {
    if bombLife[my.row][my.col] != 0 then false
    else if !(ammo > 0) then false
    else true
  }

  /** The move `act` plans: the action of `can_move_to` towards the goal. */
  function MoveAction(obs: Obs): Action
    requires ValidObs(obs)
  {
    ActionOf(CanMoveTo(obs.board, obs.position, Goal))
  }

  /**
    The planning pass of `act`: Bomb first when a bomb may be placed, then
    always the move; the Stop fallback for an empty plan is kept as written.
   */
  function Plan(obs: Obs): (q: seq<Action>)
    requires ValidObs(obs)
    ensures 1 <= |q| <= 2
    ensures q[0] == Bomb <==> CanPlaceBomb(obs.bombLife, obs.ammo, obs.position)
    ensures |q| == 2 <==> CanPlaceBomb(obs.bombLife, obs.ammo, obs.position)
    ensures q[|q| - 1] == MoveAction(obs)
  {
    var bomb := if CanPlaceBomb(obs.bombLife, obs.ammo, obs.position) then [Bomb] else [];
    var planned := bomb + [MoveAction(obs)];
    if planned == [] then [Stop] else planned
  }

  /** The planned move is never a bomb, so the plan holds Bomb only as its first entry. */
  lemma MoveIsNotBomb(obs: Obs)
    requires ValidObs(obs)
    ensures MoveAction(obs) != Bomb
  {
  }

  /** The agent's state between calls: its pending `queue`. */
  datatype MyAgent = MyAgent(queue: seq<Action>)

  /**
    `act`: plan when the queue is empty, then pop and return the front
    action.  The observation is read only when planning.
   */
  function Act(agent: MyAgent, obs: Obs): (r: (Action, MyAgent))
    requires agent.queue == [] ==> ValidObs(obs)
    ensures agent.queue != [] ==> r.0 == agent.queue[0] && r.1.queue == agent.queue[1..]
    ensures agent.queue == [] ==>
      var bomb := CanPlaceBomb(obs.bombLife, obs.ammo, obs.position);
      && (r.0 == Bomb <==> bomb)
      && (bomb ==> r.1.queue == [MoveAction(obs)])
      && (!bomb ==> r.0 == MoveAction(obs) && r.1.queue == [])
  {
    var queue := if agent.queue == [] then Plan(obs) else agent.queue;
    (queue[0], MyAgent(queue[1..]))
  }

  /** The actions returned by successive calls of `act`, one per observation, and the final state. */
  function Run(agent: MyAgent, observations: seq<Obs>): (seq<Action>, MyAgent)
    requires forall i :: 0 <= i < |observations| ==> ValidObs(observations[i])
    decreases |observations|
  {
    if observations == [] then ([], agent)
    else
      var (action, agent') := Act(agent, observations[0]);
      var (rest, final) := Run(agent', observations[1..]);
      ([action] + rest, final)
  }

  /**
    While the queue lasts, `act` returns its entries in order and ignores the
    observations: nothing is re-planned and the rest of the queue is kept.
   */
  lemma {:induction false} DrainIgnoresObservations(agent: MyAgent, observations: seq<Obs>)
    requires forall i :: 0 <= i < |observations| ==> ValidObs(observations[i])
    requires |observations| <= |agent.queue|
    ensures Run(agent, observations).0 == agent.queue[..|observations|]
    ensures Run(agent, observations).1.queue == agent.queue[|observations|..]
    decreases |observations|
  {
    if observations != [] {
      var agent' := Act(agent, observations[0]).1;
      DrainIgnoresObservations(agent', observations[1..]);
      assert agent.queue[..|observations|] == [agent.queue[0]] + agent'.queue[..|observations| - 1];
    }
  }

  /**
    Once the queue is used up the next call plans afresh from its own
    observation: no stale action survives a drained queue.
   */
  lemma ReplanAfterDrain(agent: MyAgent, observations: seq<Obs>)
    requires forall i :: 0 <= i < |observations| ==> ValidObs(observations[i])
    requires |observations| == |agent.queue| + 1
    ensures Run(agent, observations).0 == agent.queue + [Plan(observations[|agent.queue|])[0]]
  {
    var n := |agent.queue|;
    assert observations[..n] + observations[n..] == observations;
    RunSplit(agent, observations[..n], observations[n..]);
    DrainIgnoresObservations(agent, observations[..n]);
    assert agent.queue[..n] == agent.queue;
  }

  /** Running on two batches of observations is running on the first and continuing with the second. */
  lemma {:induction false} RunSplit(agent: MyAgent, first: seq<Obs>, second: seq<Obs>)
    requires forall i :: 0 <= i < |first| ==> ValidObs(first[i])
    requires forall i :: 0 <= i < |second| ==> ValidObs(second[i])
    requires forall i :: 0 <= i < |first + second| ==> ValidObs((first + second)[i])
    ensures Run(agent, first + second).0 == Run(agent, first).0 + Run(Run(agent, first).1, second).0
    ensures Run(agent, first + second).1 == Run(Run(agent, first).1, second).1
    decreases |first|
  {
    if first == [] {
      assert first + second == second;
    } else {
      var agent' := Act(agent, first[0]).1;
      var both := first + second;
      assert both[0] == first[0];
      assert both[1..] == first[1..] + second;
      RunSplit(agent', first[1..], second);
      assert Run(agent, both).0 == [Act(agent, first[0]).0] + Run(agent', both[1..]).0;
      assert Run(agent, first).0 == [Act(agent, first[0]).0] + Run(agent', first[1..]).0;
    }
  }

}

=== FILE: directions.dfy ===
/**
  The direction vocabulary: four unit moves and the zero move, each with a
  name, a displacement and the action that performs it, plus `reverse`.
  `serpentine/utils/directions.py` and `serpentine/my_agent.py` carry two
  identical copies of this table; it is defined once here.
 */
module Directions {

  import opened Geometry
  import opened Wrappers
  import Actions

  datatype Direction = Left | Right | Up | Down | Zero

  /** The `name` field; `reverse` looks directions up by it. */
  function Name(d: Direction): string {
    match d
    case Left => "left"
    case Right => "right"
    case Up => "up"
    case Down => "down"
    case Zero => "zero"
  }

  /** The `array` field: rows grow downwards, columns to the right. */
  function Delta(d: Direction): Vec {
    match d
    case Left => Vec(0, -1)
    case Right => Vec(0, 1)
    case Up => Vec(-1, 0)
    case Down => Vec(1, 0)
    case Zero => Vec(0, 0)
  }

  /** The `action` field. */
  function ActionOf(d: Direction): Actions.Action {
    match d
    case Left => Actions.Left
    case Right => Actions.Right
    case Up => Actions.Up
    case Down => Actions.Down
    case Zero => Actions.Stop
  }

  /** `Directions.ALL`, in the order every search explores neighbours. */
  const All: seq<Direction> := [Left, Right, Up, Down]

  /** `location + direction.array`. */
  function Step(p: Pos, d: Direction): Pos {
    Translate(p, Delta(d))
  }

  /**
    The dictionary inside `reverse`, keyed by direction name.  A name that is
    not a key (only "zero" among the directions) is a `KeyError`, here `None`.
   */
  function ReverseByName(name: string): Option<Direction> {
    if name == "left" then Some(Right)
    else if name == "right" then Some(Left)
    else if name == "up" then Some(Down)
    else if name == "down" then Some(Up)
    else None
  }

  /**
    `Directions.reverse`, defined on the four moves only: the lookup of
    `Name(d)` in the dictionary above (see `ReverseIsLookup`).
   */
  function Reverse(d: Direction): (r: Direction)
    requires d != Zero
    ensures r in All
    ensures Delta(r).dr == -Delta(d).dr && Delta(r).dc == -Delta(d).dc
  {
    match d
    case Left => Right
    case Right => Left
    case Up => Down
    case Down => Up
  }

  /** `reverse` is the dictionary lookup by name; it fails exactly on the zero direction. */
  lemma ReverseIsLookup(d: Direction)
    ensures d == Zero ==> ReverseByName(Name(d)) == None
    ensures d != Zero ==> ReverseByName(Name(d)) == Some(Reverse(d))
  {
    match d
    case Left =>
    case Right =>
    case Up =>
    case Down =>
    case Zero =>
      assert Name(d)[0] == 'z';
  }

  /** `reverse` swaps left with right and up with down. */
  lemma ReverseSwaps()
    ensures Reverse(Left) == Right && Reverse(Right) == Left
    ensures Reverse(Up) == Down && Reverse(Down) == Up
  {
  }

  /** `reverse` undoes itself. */
  lemma ReverseInvolution(d: Direction)
    requires d != Zero
    ensures Reverse(Reverse(d)) == d
  {
  }

  /** `ALL` holds the four moves in order; each is a distinct unit displacement. */
  lemma AllDistinctUnitMoves()
    ensures All == [Left, Right, Up, Down]
    ensures Zero !in All
    ensures forall i :: 0 <= i < |All| ==> Abs(Delta(All[i]).dr) + Abs(Delta(All[i]).dc) == 1
    ensures forall i, j :: 0 <= i < j < |All| ==> Delta(All[i]) != Delta(All[j])
  {
  }

  /** The zero direction stands still and its action is Stop. */
  lemma ZeroStandsStill(p: Pos)
    ensures Delta(Zero) == Vec(0, 0) && Step(p, Zero) == p
    ensures ActionOf(Zero) == Actions.Stop
  {
  }

  /** A move lands on an adjacent cell. */
  lemma StepAdjacent(p: Pos, d: Direction)
    requires d in All
    ensures Adjacent(p, Step(p, d))
  {
  }

  /** Moving and then moving in reverse returns to the start. */
  lemma StepBack(p: Pos, d: Direction)
    requires d != Zero
    ensures Step(Step(p, d), Reverse(d)) == p
  {
  }

  /** The move that leads from `p` to an adjacent `q`. */
  function DirectionTo(p: Pos, q: Pos): (d: Direction)
    requires Adjacent(p, q)
    ensures d in All && Step(p, d) == q
  {
    if q.col < p.col then Left
    else if q.col > p.col then Right
    else if q.row < p.row then Up
    else Down
  }

}

=== FILE: geometry.dfy ===
/**
  Integer positions and displacements on the game board.  The agent holds
  positions as `(row, col)` tuples and adds numpy displacement arrays to them;
  here both are plain integer pairs.
 */
module Geometry {

  /** A board position `(row, col)`; it may lie off the board. */
  datatype Pos = Pos(row: int, col: int)

  /** A displacement `[drow, dcol]`, the numpy `array` of a direction. */
  datatype Vec = Vec(dr: int, dc: int)

  function Translate(p: Pos, v: Vec): Pos {
    Pos(p.row + v.dr, p.col + v.dc)
  }

  function Abs(x: int): nat {
    if x < 0 then -x else x
  }

  /** Python's `min(point)` over the two coordinates. */
  function Min(p: Pos): (m: int)
    ensures m <= p.row && m <= p.col
    ensures m == p.row || m == p.col
  {
    if p.row <= p.col then p.row else p.col
  }

  /** Python's `max(point)` over the two coordinates. */
  function Max(p: Pos): (m: int)
    ensures m >= p.row && m >= p.col
    ensures m == p.row || m == p.col
  {
    if p.row <= p.col then p.col else p.row
  }

  /**
    The bounds test both search routines write as
    `min(p) < 0 or max(p) > hi`, negated: the position lies in the square
    `[0, hi] x [0, hi]`.
   */
  function InBox(p: Pos, hi: int): (b: bool)
    ensures b <==> 0 <= p.row <= hi && 0 <= p.col <= hi
  {
    !(Min(p) < 0 || Max(p) > hi)
  }

  /** Two positions one orthogonal unit step apart. */
  predicate Adjacent(p: Pos, q: Pos)
  {
    Abs(p.row - q.row) + Abs(p.col - q.col) == 1
  }

}

=== FILE: passability.dfy ===
/**
  The board as the agent sees it and `MyAgent.check_direction_passable`.
 */
module Passability {

  import opened Geometry
  import opened Directions

  /**
    A board cell as the agent sees it: pommerman's `Item.Passage`, or
    `Other`, which stands for every item that is not a passage (walls,
    bombs, flames, power-ups, agents); the agent never tells these apart.
   */
  datatype Item = Passage | Other

  /** The observation's `board`, indexed `board[row][col]`. */
  type Board = seq<seq<Item>>

  /** The largest index the agent's bounds test admits (a literal `10` in the source). */
  const MaxIdx: int := 10

  /**
    The board has every cell the agent may read: rows and columns `0..MaxIdx`.
    A smaller array would make numpy raise `IndexError`.
   */
  predicate Covers(board: Board)
  {
    && |board| > MaxIdx
    && forall i :: 0 <= i <= MaxIdx ==> |board[i]| > MaxIdx
  }

  /** A cell the agent may enter: inside rows and columns `0..MaxIdx` and a passage. */
  predicate Passable(board: Board, p: Pos)
    requires Covers(board)
  {
    0 <= p.row <= MaxIdx && 0 <= p.col <= MaxIdx && board[p.row][p.col] == Passage
  }

  /**
    `check_direction_passable`: whether `location + direction` is a passage,
    false (rather than an index error) when it is off the board.
   */
  function CheckDirectionPassable(board: Board, location: Pos, direction: Direction): (r: bool)
    requires Covers(board)
    ensures r <==> Passable(board, Step(location, direction))
    ensures !InBox(Step(location, direction), MaxIdx) ==> !r
  {
    var next := Step(location, direction);
    if Min(next) < 0 || Max(next) > MaxIdx then false
    else board[next.row][next.col] == Passage
  }

}

=== FILE: pathfinder.dfy ===
/**
  `PathFinder` and its generator `bfs_generator`, as a state machine.

  The generator's frame (the point being expanded and how many directions
  of `ALL` it has tried) is the `Cursor`; `Next` runs the generator body up
  to its next `yield`.  The caller may push points onto `to_visit` between
  two calls (`Push`); the generator itself never does.
 */
module PathFinding {

  import opened Geometry
  import opened Directions
  import opened Wrappers

  /** The largest index `is_on_grid` admits (a literal `7` in the source). */
  const GridMaxIdx: int := 7

  /** The object's fields: the `to_visit` deque, the `visited` list and the `trail` dictionary. */
  datatype Finder = Finder(toVisit: seq<Pos>, visited: seq<Pos>, trail: map<Pos, Option<Direction>>)

  /**
    Where the generator is: between points, expanding `point` at direction
    `All[next]`, or returned from its body, after which it never yields again.
   */
  datatype Cursor = Idle | Expanding(point: Pos, next: nat) | Finished

  datatype Generator = Generator(finder: Finder, cursor: Cursor)

  /** `reset`: empties the queue, the visited list and the trail. */
  function Reset(f: Finder): (r: Finder)
    ensures |r.toVisit| == 0 && |r.visited| == 0 && |r.trail| == 0
  {
    Finder([], [], map[])
  }

  /** `is_on_grid`: both coordinates in `0..7`. */
  function IsOnGrid(p: Pos): (r: bool)
    ensures r <==> 0 <= p.row <= GridMaxIdx && 0 <= p.col <= GridMaxIdx
  {
    !(Min(p) < 0 || Max(p) > GridMaxIdx)
  }

  predicate NoDuplicates(s: seq<Pos>)
  {
    forall i, j :: 0 <= i < j < |s| ==> s[i] != s[j]
  }

  /** A point that has been expanded, or is being expanded now. */
  predicate Expanded(g: Generator, p: Pos)
  {
    p in g.finder.visited || (g.cursor.Expanding? && g.cursor.point == p)
  }

  /**
    The generator's invariant: no point is expanded twice, and every trail
    entry other than the start's `None` is a move that leads from an
    expanded point to the entry's point.
   */
  predicate GenInv(g: Generator)
  {
    && NoDuplicates(g.finder.visited)
    && (g.cursor.Expanding? ==> g.cursor.point !in g.finder.visited && g.cursor.next <= |All|)
    && (forall p :: p in g.finder.trail && g.finder.trail[p].Some? ==>
          g.finder.trail[p].value in All && Expanded(g, Step(p, Reverse(g.finder.trail[p].value))))
  }

  /**
    The start of `bfs_generator(start)`: `reset`, queue the start and record
    it in the trail with no direction.
   */
  function Start(f: Finder, start: Pos): (g: Generator)
    ensures g.finder.toVisit == [start] && g.finder.visited == []
    ensures start in g.finder.trail && g.finder.trail[start] == None && |g.finder.trail| == 1
    ensures GenInv(g)
  {
    var f := Reset(f);
    Generator(Finder(f.toVisit + [start], f.visited, f.trail[start := None]), Idle)
  }

  /** The caller appending to `to_visit` between two yields. */
  function Push(g: Generator, p: Pos): (r: Generator)
    requires GenInv(g)
    ensures GenInv(r)
    ensures r.finder.toVisit == g.finder.toVisit + [p]
    ensures r.finder.visited == g.finder.visited && r.finder.trail == g.finder.trail && r.cursor == g.cursor
  {
    Generator(Finder(g.finder.toVisit + [p], g.finder.visited, g.finder.trail), g.cursor)
  }

  function Rank(c: Cursor): nat {
    match c
    case Finished => 0
    case Idle => 1
    case Expanding(_, next) => if next <= |All| then |All| + 2 - next else 0
  }

  /** Work left for the generator without further pushes, in lexicographic order of queue length and cursor. */
  function Measure(g: Generator): nat {
    |g.finder.toVisit| * (|All| + 3) + Rank(g.cursor)
  }

  /** The generator has yielded `p` from the point it is expanding, by the direction it just tried. */
  predicate JustYielded(g: Generator, p: Pos)
  {
    && g.cursor.Expanding?
    && 1 <= g.cursor.next <= |All|
    && p == Step(g.cursor.point, All[g.cursor.next - 1])
    && p in g.finder.trail
    && g.finder.trail[p] == Some(All[g.cursor.next - 1])
  }

  /** A neighbour the generator yields: on the grid and not yet visited. */
  predicate Fresh(f: Finder, p: Pos)
  {
    IsOnGrid(p) && p !in f.visited
  }

  /** The generator has returned: the `while` loop found the queue empty. */
  predicate Done(g: Generator)
  {
    g.cursor.Finished?
  }

  /**
    One step of the generator body: leave the loop when the queue is empty,
    dequeue a point (skipping it when it is already visited), try one
    direction of `ALL` (yielding the neighbour when it is on the grid and not
    visited), or finish an expansion by marking the point visited.  A
    returned generator stays returned.
   */
  function Tick(g: Generator): (r: (Generator, Option<Pos>))
    requires GenInv(g)
    ensures GenInv(r.0)
    ensures r.0.finder.toVisit == g.finder.toVisit || (g.finder.toVisit != [] && r.0.finder.toVisit == g.finder.toVisit[1..])
    ensures g.finder.visited <= r.0.finder.visited
    ensures || r.0.finder.visited == g.finder.visited
            || (g.cursor.Expanding? && r.0.finder.visited == g.finder.visited + [g.cursor.point])
    ensures forall p :: Expanded(g, p) ==> Expanded(r.0, p)
    ensures r.1.None? ==> r.0.finder.trail == g.finder.trail
    ensures r.1.Some? ==>
      && g.cursor.Expanding? && g.cursor.next < |All|
      && r.0.finder.trail == g.finder.trail[r.1.value := Some(All[g.cursor.next])]
    ensures g.cursor.Expanding? ==> r.0.finder.toVisit == g.finder.toVisit
    ensures g.cursor.Expanding? && g.cursor.next < |All| ==>
      && r.0.cursor == Expanding(g.cursor.point, g.cursor.next + 1)
      && (r.1.Some? <==> Fresh(g.finder, Step(g.cursor.point, All[g.cursor.next])))
    ensures g.cursor.Expanding? && g.cursor.next == |All| ==> r.0.cursor == Idle
    ensures g.cursor.Idle? && g.finder.toVisit != [] ==>
      && r.0.finder.toVisit == g.finder.toVisit[1..]
      && (g.finder.toVisit[0] !in g.finder.visited ==> r.0.cursor == Expanding(g.finder.toVisit[0], 0))
      && (g.finder.toVisit[0] in g.finder.visited ==> r.0.cursor == Idle)
    ensures g.cursor.Idle? && r.0.cursor.Expanding? ==>
      && g.finder.toVisit != []
      && r.0.cursor == Expanding(g.finder.toVisit[0], 0)
      && g.finder.toVisit[0] !in g.finder.visited
    ensures r.0.cursor.Finished? <==> (Done(g) || (g.cursor.Idle? && g.finder.toVisit == []))
    ensures Done(g) ==> r == (g, None)
    ensures !Done(g) ==> Measure(r.0) < Measure(g)
    ensures r.1.Some? ==>
      && JustYielded(r.0, r.1.value)
      && IsOnGrid(r.1.value)
      && r.1.value !in r.0.finder.visited
  {
    var f := g.finder;
    match g.cursor
    case Finished => (g, None)
    case Idle =>
      if f.toVisit == [] then (Generator(f, Finished), None)
      else
        var point := f.toVisit[0];
        var f' := f.(toVisit := f.toVisit[1..]);
        if point in f.visited then (Generator(f', Idle), None)
        else (Generator(f', Expanding(point, 0)), None)
    case Expanding(point, i) =>
      if i == |All| then
        var r := Generator(f.(visited := f.visited + [point]), Idle);
        assert forall p :: Expanded(g, p) ==> Expanded(r, p);
        (r, None)
      else
        var d := All[i];
        var p := Step(point, d);
        if Fresh(f, p) then
          StepBack(p, d);
          (Generator(f.(trail := f.trail[p := Some(d)]), Expanding(point, i + 1)), Some(p))
        else
          (Generator(f, Expanding(point, i + 1)), None)
  }

  /**
    Resume the generator until its next `yield` (`Some`) or until it returns
    (`None`, the `StopIteration` of a Python generator).  What a resume
    guarantees is stated by `NextResumes`.
   */
  function Next(g: Generator): (r: (Generator, Option<Pos>))
    requires GenInv(g)
    ensures GenInv(r.0)
    ensures r.1.None? ==> Done(r.0)
    ensures r.1.Some? ==> Measure(r.0) < Measure(g)
    decreases Measure(g)
  {
    if Done(g) then (g, None)
    else
      var t := Tick(g);
      if t.1.Some? then t else Next(t.0)
  }

  /**
    One resume of the generator: the queue only loses entries from its
    front, the point being expanded is the old one or was dequeued, the
    trail changes only at the yielded point, which is on the grid, unvisited
    and reached from the expanding point by the recorded direction.  No
    yield means the loop found the queue empty, and a returned generator is
    left as it is.
   */
  lemma {:induction false} NextResumes(g: Generator)
    requires GenInv(g)
    ensures var r := Next(g);
      && |r.0.finder.toVisit| <= |g.finder.toVisit|
      && r.0.finder.toVisit == g.finder.toVisit[|g.finder.toVisit| - |r.0.finder.toVisit|..]
      && (forall x :: x in r.0.finder.toVisit ==> x in g.finder.toVisit)
      && g.finder.visited <= r.0.finder.visited
      && (forall p :: Expanded(g, p) ==> Expanded(r.0, p))
      && (r.0.cursor.Expanding? ==>
            || (g.cursor.Expanding? && r.0.cursor.point == g.cursor.point)
            || r.0.cursor.point in g.finder.toVisit)
    ensures var r := Next(g);
      && (r.1.None? ==> r.0.finder.trail == g.finder.trail)
      && (r.1.Some? ==>
            && r.1.value in r.0.finder.trail
            && r.0.finder.trail == g.finder.trail[r.1.value := r.0.finder.trail[r.1.value]])
    ensures var r := Next(g);
      && (r.1.None? ==> Done(r.0) && (Done(g) || r.0.finder.toVisit == []))
      && (Done(g) ==> r == (g, None))
      && (r.1.Some? ==>
            && JustYielded(r.0, r.1.value)
            && IsOnGrid(r.1.value)
            && r.1.value !in r.0.finder.visited)
    decreases Measure(g)
  {
    if !Done(g) {
      var t := Tick(g);
      var g' := t.0;
      if t.1.None? {
        assert Next(g) == Next(g');
        NextResumes(g');
        assert g.finder.toVisit[|g.finder.toVisit| - |g'.finder.toVisit|..] == g'.finder.toVisit;
        assert Done(g') ==> g'.finder.toVisit == [];
      }
    }
  }

  /**
    Resumed in the middle of expanding `p` at direction `All[i]`, the
    generator yields the neighbour in the first direction `All[k]`, `k >= i`,
    that is fresh.
   */
  lemma {:induction false} ResumeYieldsFirstFresh(g: Generator, k: nat)
    requires GenInv(g) && g.cursor.Expanding?
    requires g.cursor.next <= k < |All|
    requires Fresh(g.finder, Step(g.cursor.point, All[k]))
    requires forall j :: g.cursor.next <= j < k ==> !Fresh(g.finder, Step(g.cursor.point, All[j]))
    ensures Next(g).1 == Some(Step(g.cursor.point, All[k]))
    ensures Next(g).0.cursor == Expanding(g.cursor.point, k + 1)
    decreases k - g.cursor.next
  {
    var t := Tick(g);
    if g.cursor.next < k {
      assert !Fresh(g.finder, Step(g.cursor.point, All[g.cursor.next]));
      assert Next(g) == Next(t.0);
      ResumeYieldsFirstFresh(t.0, k);
    }
  }

  /**
    Resumed in the middle of expanding `p` with no fresh neighbour left in
    the remaining directions, the generator marks `p` visited and carries on
    with the queue.
   */
  lemma {:induction false} ResumeFinishesExpansion(g: Generator)
    requires GenInv(g) && g.cursor.Expanding?
    requires forall j :: g.cursor.next <= j < |All| ==> !Fresh(g.finder, Step(g.cursor.point, All[j]))
    ensures GenInv(Generator(g.finder.(visited := g.finder.visited + [g.cursor.point]), Idle))
    ensures Next(g) == Next(Generator(g.finder.(visited := g.finder.visited + [g.cursor.point]), Idle))
    decreases |All| - g.cursor.next
  {
    var t := Tick(g);
    if g.cursor.next < |All| {
      assert !Fresh(g.finder, Step(g.cursor.point, All[g.cursor.next]));
      assert Next(g) == Next(t.0);
      ResumeFinishesExpansion(t.0);
    } else {
      assert t.0 == Generator(g.finder.(visited := g.finder.visited + [g.cursor.point]), Idle);
    }
  }

  /**
    Resumed between points with a non-empty queue, the generator dequeues the
    front and expands it from the first direction, or skips it when it has
    been expanded before.
   */
  lemma ResumeDequeues(g: Generator)
    requires GenInv(g) && g.cursor.Idle? && g.finder.toVisit != []
    ensures var front, rest := g.finder.toVisit[0], g.finder.toVisit[1..];
      var c := if front in g.finder.visited then Idle else Expanding(front, 0);
      && GenInv(Generator(g.finder.(toVisit := rest), c))
      && Next(g) == Next(Generator(g.finder.(toVisit := rest), c))
  {
    var t := Tick(g);
    assert t.0 == Generator(g.finder.(toVisit := g.finder.toVisit[1..]), t.0.cursor);
  }

  /**
    A generator that has returned never yields again: points the caller
    appends to `to_visit` afterwards are not expanded.
   */
  lemma StoppedStaysStopped(g: Generator, p: Pos)
    requires GenInv(g)
    requires Next(g).1.None?
    ensures Next(Push(Next(g).0, p)) == (Push(Next(g).0, p), None)
  {
    NextResumes(Push(Next(g).0, p));
  }

  /** Every point the generator yields when resumed until it stops, with no pushes in between. */
  function Drain(g: Generator): seq<Pos>
    requires GenInv(g)
    decreases Measure(g)
  {
    var (g', out) := Next(g);
    match out
    case None => []
    case Some(p) => [p] + Drain(g')
  }

  /** The on-grid neighbours of `p` in the directions `All[i..]`, in order. */
  function GridNeighbours(p: Pos, i: nat): (r: seq<Pos>)
    requires i <= |All|
    ensures forall q :: q in r ==> IsOnGrid(q) && Adjacent(p, q)
    decreases |All| - i
  {
    if i == |All| then []
    else
      StepAdjacent(p, All[i]);
      (if IsOnGrid(Step(p, All[i])) then [Step(p, All[i])] else []) + GridNeighbours(p, i + 1)
  }

  /** With nothing queued, finishing an expansion stops the generator. */
  lemma FinishStops(f: Finder, p: Pos)
    requires f.toVisit == []
    requires GenInv(Generator(f, Expanding(p, |All|)))
    ensures Drain(Generator(f, Expanding(p, |All|))) == []
  {
    var g0 := Generator(f, Expanding(p, |All|));
    var g1 := Generator(f.(visited := f.visited + [p]), Idle);
    var g2 := Generator(g1.finder, Finished);
    assert Tick(g0) == (g1, None);
    assert Tick(g1) == (g2, None);
    assert Next(g2) == (g2, None);
    assert Next(g1) == (g2, None);
    assert Next(g0) == (g2, None);
  }

  /** An on-grid, unvisited neighbour is yielded next, with its direction recorded in the trail. */
  lemma NextYields(f: Finder, p: Pos, i: nat)
    requires i < |All|
    requires IsOnGrid(Step(p, All[i])) && Step(p, All[i]) !in f.visited
    requires GenInv(Generator(f, Expanding(p, i)))
    ensures Next(Generator(f, Expanding(p, i))) ==
      (Generator(f.(trail := f.trail[Step(p, All[i]) := Some(All[i])]), Expanding(p, i + 1)), Some(Step(p, All[i])))
  {
    var g := Generator(f, Expanding(p, i));
    var t := Tick(g);
    assert Fresh(f, Step(p, All[i]));
    assert t.1 == Some(Step(p, All[i]));
    assert t.0.cursor == Expanding(p, i + 1);
    assert t.0.finder.visited == f.visited;
    assert t.0.finder == f.(trail := f.trail[Step(p, All[i]) := Some(All[i])]);
    assert Next(g) == t;
  }

  /** After yielding a neighbour, the rest of the output is what the resumed generator yields. */
  lemma YieldStep(f: Finder, p: Pos, i: nat) returns (f': Finder)
    requires i < |All|
    requires IsOnGrid(Step(p, All[i])) && Step(p, All[i]) !in f.visited
    requires GenInv(Generator(f, Expanding(p, i)))
    ensures f' == f.(trail := f.trail[Step(p, All[i]) := Some(All[i])])
    ensures f'.toVisit == f.toVisit && f'.visited == f.visited
    ensures GenInv(Generator(f', Expanding(p, i + 1)))
    ensures Drain(Generator(f, Expanding(p, i))) == [Step(p, All[i])] + Drain(Generator(f', Expanding(p, i + 1)))
  {
    NextYields(f, p, i);
    f' := Next(Generator(f, Expanding(p, i))).0.finder;
  }

  /** A neighbour off the grid is passed over. */
  lemma SkipStep(f: Finder, p: Pos, i: nat)
    requires i < |All|
    requires !IsOnGrid(Step(p, All[i]))
    requires GenInv(Generator(f, Expanding(p, i)))
    ensures GenInv(Generator(f, Expanding(p, i + 1)))
    ensures Drain(Generator(f, Expanding(p, i))) == Drain(Generator(f, Expanding(p, i + 1)))
  {
    assert Tick(Generator(f, Expanding(p, i))) == (Generator(f, Expanding(p, i + 1)), None);
    assert Next(Generator(f, Expanding(p, i))) == Next(Generator(f, Expanding(p, i + 1)));
  }

  /** Expanding the only point, with nothing else queued, yields its remaining on-grid neighbours. */
  lemma {:induction false} ExpandingOnlyPoint(f: Finder, p: Pos, i: nat)
    requires i <= |All|
    requires f.toVisit == [] && f.visited == []
    requires GenInv(Generator(f, Expanding(p, i)))
    ensures Drain(Generator(f, Expanding(p, i))) == GridNeighbours(p, i)
    decreases |All| - i, 1
  {
    if i == |All| {
      FinishStops(f, p);
    } else if IsOnGrid(Step(p, All[i])) {
      ExpandingYields(f, p, i);
    } else {
      ExpandingSkips(f, p, i);
    }
  }

  /** The case of `ExpandingOnlyPoint` where the next neighbour is on the grid. */
  lemma {:induction false} ExpandingYields(f: Finder, p: Pos, i: nat)
    requires i < |All| && IsOnGrid(Step(p, All[i]))
    requires f.toVisit == [] && f.visited == []
    requires GenInv(Generator(f, Expanding(p, i)))
    ensures Drain(Generator(f, Expanding(p, i))) == GridNeighbours(p, i)
    decreases |All| - i, 0
  {
    var f' := YieldStep(f, p, i);
    ExpandingOnlyPoint(f', p, i + 1);
    assert GridNeighbours(p, i) == [Step(p, All[i])] + GridNeighbours(p, i + 1);
  }

  /** The case of `ExpandingOnlyPoint` where the next neighbour is off the grid. */
  lemma {:induction false} ExpandingSkips(f: Finder, p: Pos, i: nat)
    requires i < |All| && !IsOnGrid(Step(p, All[i]))
    requires f.toVisit == [] && f.visited == []
    requires GenInv(Generator(f, Expanding(p, i)))
    ensures Drain(Generator(f, Expanding(p, i))) == GridNeighbours(p, i)
    decreases |All| - i, 0
  {
    SkipStep(f, p, i);
    ExpandingOnlyPoint(f, p, i + 1);
    assert GridNeighbours(p, i) == GridNeighbours(p, i + 1);
  }

  /**
    Without pushes by the caller the generator yields exactly the on-grid
    neighbours of the start, in the order left, right, up, down, and stops.
   */
  lemma StartYieldsNeighbours(f: Finder, start: Pos)
    ensures Drain(Start(f, start)) == GridNeighbours(start, 0)
  {
    var g := Start(f, start);
    var f1 := g.finder.(toVisit := []);
    assert Tick(g) == (Generator(f1, Expanding(start, 0)), None);
    assert Next(g) == Next(Generator(f1, Expanding(start, 0)));
    ExpandingOnlyPoint(f1, start, 0);
  }

}

=== FILE: reverse_search.dfy ===
/**
  `MyAgent.can_move_to`: a breadth-first search that starts at the goal and
  works outwards over passable cells until it expands a cell next to the
  agent; the answer is the step from the agent onto that cell.

  As in the source, a dequeued point is expanded even when it was expanded
  before, so a point can sit on the queue several times; only the `visited`
  test on neighbours keeps the search finite.  `visited` is a list in the
  source and is only ever tested for membership, so here it is a set.
 */
module ReverseSearch {

  import opened Geometry
  import opened Directions
  import opened Passability
  import opened Routes

  /** The outcome of looking at the neighbours of one dequeued point. */
  datatype ScanOutcome =
    | Found(dir: Direction)          // the agent stands `dir` away from the point
    | Continue(queue: seq<Pos>)      // the queue with the new passable neighbours appended

  /**
    The inner `for direction in Directions.ALL` loop over `All[i..]`: stop at
    the first neighbour that is the agent; skip visited neighbours; append the
    passable ones.
   */
  function Scan(board: Board, my: Pos, point: Pos, visited: set<Pos>, queue: seq<Pos>, i: nat): (r: ScanOutcome)
    requires Covers(board)
    requires i <= |All|
    ensures r.Found? ==> r.dir in All[i..] && Step(point, r.dir) == my
    ensures r.Continue? ==> queue <= r.queue && |r.queue| <= |queue| + (|All| - i)
    ensures r.Continue? ==> forall k :: i <= k < |All| ==> Step(point, All[k]) != my
    ensures r.Continue? ==>
      forall x :: x in r.queue[|queue|..] ==> x !in visited && Passable(board, x) && Adjacent(point, x)
    ensures r.Continue? ==>
      forall k :: i <= k < |All| && Step(point, All[k]) !in visited && Passable(board, Step(point, All[k])) ==>
        Step(point, All[k]) in r.queue[|queue|..]
    decreases |All| - i
  {
    if i == |All| then Continue(queue)
    else
      var d := All[i];
      var next := Step(point, d);
      StepAdjacent(point, d);
      if next == my then Found(d)
      else if next in visited then Scan(board, my, point, visited, queue, i + 1)
      else if CheckDirectionPassable(board, point, d) then
        var r := Scan(board, my, point, visited, queue + [next], i + 1);
        if r.Found? then r
        else
          var added := r.queue[|queue|..];
          assert added == [next] + r.queue[|queue| + 1..];
          assert forall x :: x in r.queue[|queue| + 1..] ==> x in added;
          r
      else Scan(board, my, point, visited, queue, i + 1)
  }

  /** The cells the agent's bounds test admits. */
  function Grid(): set<Pos> {
    set r: int, c: int | 0 <= r <= MaxIdx && 0 <= c <= MaxIdx :: Pos(r, c)
  }

  /** Every point the search can ever put on its queue: the goal and the cells of the grid. */
  function Region(goal: Pos): set<Pos> {
    Grid() + {goal}
  }

  /**
    Termination measure for the queue: an entry already expanded weighs 5,
    a fresh one 1, so that re-expanding a point (which appends at most four
    fresh entries) lowers the weight.
   */
  function Weight(queue: seq<Pos>, visited: set<Pos>): nat {
    if queue == [] then 0
    else (if queue[0] in visited then 5 else 1) + Weight(queue[1..], visited)
  }

  lemma {:induction false} WeightAppend(a: seq<Pos>, b: seq<Pos>, visited: set<Pos>)
    ensures Weight(a + b, visited) == Weight(a, visited) + Weight(b, visited)
    decreases |a|
  {
    if a != [] {
      assert (a + b)[1..] == a[1..] + b;
      WeightAppend(a[1..], b, visited);
    } else {
      assert a + b == b;
    }
  }

  lemma {:induction false} WeightFresh(b: seq<Pos>, visited: set<Pos>)
    requires forall x :: x in b ==> x !in visited
    ensures Weight(b, visited) == |b|
    decreases |b|
  {
    if b != [] {
      WeightFresh(b[1..], visited);
    }
  }

  /** One round of the outer loop lowers the measure of `Search`. */
  lemma SearchStepDecreases(goal: Pos, queue: seq<Pos>, visited: set<Pos>, next: seq<Pos>)
    requires queue != []
    requires forall x :: x in queue ==> x in Region(goal)
    requires visited <= Region(goal)
    requires queue[1..] <= next && |next| <= |queue[1..]| + |All|
    requires forall x :: x in next[|queue[1..]|..] ==> x !in visited
    ensures || |Region(goal) - (visited + {queue[0]})| < |Region(goal) - visited|
            || (&& |Region(goal) - (visited + {queue[0]})| == |Region(goal) - visited|
                && Weight(next, visited + {queue[0]}) < Weight(queue, visited))
  {
    var point := queue[0];
    if point !in visited {
      assert Region(goal) - visited == (Region(goal) - (visited + {point})) + {point};
    } else {
      assert visited + {point} == visited;
      var added := next[|queue[1..]|..];
      assert next == queue[1..] + added;
      WeightAppend(queue[1..], added, visited);
      WeightFresh(added, visited);
    }
  }

  /** The entries a scan appends are grid cells, so the queue stays inside the region. */
  lemma ScanStaysInRegion(board: Board, my: Pos, goal: Pos, queue: seq<Pos>, visited: set<Pos>, next: seq<Pos>)
    requires Covers(board)
    requires queue != []
    requires forall x :: x in queue ==> x in Region(goal)
    requires Scan(board, my, queue[0], visited, queue[1..], 0) == Continue(next)
    ensures forall x :: x in next[|queue[1..]|..] ==> x in Grid() && x !in visited
    ensures forall x :: x in next ==> x in Region(goal)
  {
    forall x | x in next[|queue[1..]|..] ensures x in Grid() {
      assert x == Pos(x.row, x.col);
    }
    assert next == queue[1..] + next[|queue[1..]|..];
  }

  /**
    The `while to_visit` loop: dequeue the front point, scan its neighbours,
    then mark it visited.  An exhausted queue yields the zero direction.
   */
  function Search(board: Board, my: Pos, goal: Pos, queue: seq<Pos>, visited: set<Pos>): (r: Direction)
    requires Covers(board)
    requires forall x :: x in queue ==> x in Region(goal)
    requires visited <= Region(goal)
    ensures queue == [] ==> r == Zero
    ensures r != Zero ==> r in All && Step(my, r) in Region(goal)
    decreases |Region(goal) - visited|, Weight(queue, visited)
  {
    if queue == [] then Zero
    else
      var point := queue[0];
      match Scan(board, my, point, visited, queue[1..], 0)
      case Found(d) =>
        StepBack(point, d);
        Reverse(d)
      case Continue(next) =>
        ScanStaysInRegion(board, my, goal, queue, visited, next);
        SearchStepDecreases(goal, queue, visited, next);
        Search(board, my, goal, next, visited + {point})
  }

  /**
    `MyAgent.can_move_to(board, my_location, goal_location)`: the first step
    of a shortest route from the agent to the goal, or the zero direction
    when the agent is already there or no route exists.
   */
  function CanMoveTo(board: Board, my: Pos, goal: Pos): (r: Direction)
    requires Covers(board)
    ensures my == goal ==> r == Zero
    ensures r != Zero ==> r in All && (Step(my, r) == goal || Passable(board, Step(my, r)))
    ensures my != goal ==> (r != Zero <==> Reachable(board, my, goal))
    ensures r != Zero ==> ShortestFirstStep(board, my, goal, r)
  {
    if my == goal then Zero
    else
      InitialInv(board, my, goal);
      SearchCorrect(board, my, goal, [goal], {}, [0], map[]);
      Search(board, my, goal, [goal], {})
  }

  // ---------------------------------------------------------------------------
  // Correctness of the search.
  //
  // The proof tags every queue entry with a ghost label, the length of a route
  // from it to the goal, and every visited point with the label it was first
  // expanded with.  Labels along the queue never decrease and span at most
  // one; the neighbours of every visited point are never the agent and, when
  // passable, are visited or queued with a label at most one more.
  // ---------------------------------------------------------------------------

  ghost predicate LabelsSorted(labels: seq<nat>)
  {
    forall i, j :: 0 <= i <= j < |labels| ==> labels[i] <= labels[j] <= labels[i] + 1
  }

  ghost predicate Closed(board: Board, my: Pos, queue: seq<Pos>, labels: seq<nat>, vlab: map<Pos, nat>)
    requires Covers(board)
    requires |queue| == |labels|
  {
    forall v, n :: v in vlab && Adjacent(v, n) ==>
      && n != my
      && (Passable(board, n) ==>
            || (n in vlab && vlab[n] <= vlab[v] + 1)
            || (exists j :: 0 <= j < |queue| && queue[j] == n && labels[j] <= vlab[v] + 1))
  }

  ghost predicate SearchInv(board: Board, my: Pos, goal: Pos, queue: seq<Pos>, labels: seq<nat>, vlab: map<Pos, nat>)
    requires Covers(board)
  {
    && |queue| == |labels|
    && LabelsSorted(labels)
    && (forall i :: 0 <= i < |queue| ==> HasPath(board, queue[i], goal, labels[i]))
    && (forall v :: v in vlab && |labels| > 0 ==> vlab[v] <= labels[0])
    && Closed(board, my, queue, labels, vlab)
    && (vlab == map[] ==> queue == [goal] && labels == [0])
    && (vlab != map[] ==> goal in vlab && vlab[goal] == 0)
  }

  /** What the search promises about the direction it returns. */
  ghost predicate SearchOutcome(board: Board, my: Pos, goal: Pos, r: Direction)
    requires Covers(board)
  {
    && (r == Zero ==> !Reachable(board, my, goal))
    && (r != Zero ==>
          && r in All
          && (Step(my, r) == goal || Passable(board, Step(my, r)))
          && ShortestFirstStep(board, my, goal, r))
  }

  lemma InitialInv(board: Board, my: Pos, goal: Pos)
    requires Covers(board)
    ensures SearchInv(board, my, goal, [goal], [0], map[])
  {
    GoalHasPath(board, goal);
  }

  /** The labels after one round: the head is dropped and new entries get the head's label plus one. */
  function NextLabels(labels: seq<nat>, added: nat): (r: seq<nat>)
    requires labels != []
    ensures |r| == |labels| - 1 + added
  {
    labels[1..] + seq(added, _ => labels[0] + 1)
  }

  /** The visited labels after expanding `point` with label `hops`; a re-expanded point keeps its first label. */
  function NextVisited(vlab: map<Pos, nat>, point: Pos, hops: nat): (r: map<Pos, nat>)
    ensures r.Keys == vlab.Keys + {point}
  {
    if point in vlab then vlab else vlab[point := hops]
  }

  /** Along a route from the agent, every cell after the first is visited, with a label at most its distance to the goal. */
  lemma {:induction false} RouteCellsVisited(board: Board, my: Pos, goal: Pos, queue: seq<Pos>, labels: seq<nat>,
                                             vlab: map<Pos, nat>, route: seq<Pos>, i: nat)
    requires Covers(board)
    requires |queue| == |labels| && Closed(board, my, queue, labels, vlab)
    requires goal in vlab && vlab[goal] == 0
    requires IsRoute(board, my, goal, route)
    requires 0 < i < |route|
    requires forall j :: 0 <= j < |labels| ==> |route| - 1 <= labels[j]
    ensures route[i] in vlab && vlab[route[i]] <= |route| - 1 - i
    decreases |route| - i
  {
    if i < |route| - 1 {
      RouteCellsVisited(board, my, goal, queue, labels, vlab, route, i + 1);
      var v, n := route[i + 1], route[i];
      assert Adjacent(n, v);
      assert Adjacent(v, n);
      assert Passable(board, n);
    }
  }

  /** With every queued label at least `bound`, no route from the agent is shorter than `bound + 1`. */
  lemma NoShorterRoute(board: Board, my: Pos, goal: Pos, queue: seq<Pos>, labels: seq<nat>, vlab: map<Pos, nat>, bound: nat)
    requires Covers(board)
    requires |queue| == |labels| && Closed(board, my, queue, labels, vlab)
    requires goal in vlab && vlab[goal] == 0
    requires my != goal
    requires forall j :: 0 <= j < |labels| ==> bound <= labels[j]
    ensures AtLeastHops(board, my, goal, bound + 1)
  {
    forall route | IsRoute(board, my, goal, route) ensures |route| - 1 >= bound + 1 {
      if |route| - 1 <= bound {
        assert Adjacent(route[1], route[0]) by {
          assert Adjacent(route[0], route[1]);
        }
        RouteCellsVisited(board, my, goal, queue, labels, vlab, route, 1);
      }
    }
  }

  /** An exhausted queue means the agent cannot reach the goal. */
  lemma ExhaustedMeansUnreachable(board: Board, my: Pos, goal: Pos, vlab: map<Pos, nat>)
    requires Covers(board)
    requires SearchInv(board, my, goal, [], [], vlab)
    requires my != goal
    ensures !Reachable(board, my, goal)
  {
    forall route | IsRoute(board, my, goal, route) ensures false {
      assert Adjacent(route[1], route[0]) by {
        assert Adjacent(route[0], route[1]);
      }
      RouteCellsVisited(board, my, goal, [], [], vlab, route, 1);
    }
  }

  /** Finding the agent next to the head of the queue gives the first step of a shortest route. */
  lemma FoundIsShortest(board: Board, my: Pos, goal: Pos, queue: seq<Pos>, labels: seq<nat>, vlab: map<Pos, nat>, d: Direction)
    requires Covers(board)
    requires SearchInv(board, my, goal, queue, labels, vlab)
    requires my != goal
    requires queue != []
    requires d in All && Step(queue[0], d) == my
    ensures SearchOutcome(board, my, goal, Reverse(d))
  {
    var point, hops := queue[0], labels[0];
    var r := Reverse(d);
    StepBack(point, d);
    assert Step(my, r) == point;
    StepAdjacent(my, r);
    var route := PrependStart(board, my, point, goal, hops);
    if vlab == map[] {
      assert hops == 0;
      forall other | IsRoute(board, my, goal, other) ensures |other| - 1 >= 1 {
      }
    } else {
      NoShorterRoute(board, my, goal, queue, labels, vlab, hops);
    }
    assert AtLeastHops(board, my, goal, |route| - 1);
    assert ShortestFirstStep(board, my, goal, r);
    assert Reachable(board, my, goal);
  }

  /** Dropping the head and appending entries labelled one more keeps the labels sorted. */
  lemma NextLabelsSorted(labels: seq<nat>, added: nat)
    requires labels != [] && LabelsSorted(labels)
    ensures LabelsSorted(NextLabels(labels, added))
    ensures NextLabels(labels, added) != [] ==> NextLabels(labels, added)[0] >= labels[0]
  {
    var labels' := NextLabels(labels, added);
    var rest := |labels| - 1;
    assert forall i :: 0 <= i < rest ==> labels'[i] == labels[i + 1];
    assert forall i :: rest <= i < |labels'| ==> labels'[i] == labels[0] + 1;
    assert forall i :: 0 <= i < |labels| ==> labels[0] <= labels[i] <= labels[0] + 1;
  }

  /** Entries appended next to a head `hops` steps from the goal are `hops + 1` steps from it. */
  lemma NextHasPaths(board: Board, goal: Pos, queue: seq<Pos>, labels: seq<nat>, next: seq<Pos>)
    requires Covers(board)
    requires |queue| == |labels| && queue != []
    requires forall i :: 0 <= i < |queue| ==> HasPath(board, queue[i], goal, labels[i])
    requires queue[1..] <= next
    requires forall x :: x in next[|queue[1..]|..] ==> Passable(board, x) && Adjacent(queue[0], x)
    ensures forall i :: 0 <= i < |next| ==>
      HasPath(board, next[i], goal, NextLabels(labels, |next| - |queue[1..]|)[i])
  {
    var rest := queue[1..];
    var labels' := NextLabels(labels, |next| - |rest|);
    forall i | 0 <= i < |next| ensures HasPath(board, next[i], goal, labels'[i]) {
      if i < |rest| {
        assert next[i] == queue[i + 1] && labels'[i] == labels[i + 1];
      } else {
        assert next[i] in next[|rest|..];
        assert labels'[i] == labels[0] + 1;
        ExtendPath(board, queue[0], next[i], goal, labels[0]);
      }
    }
  }

  /** Closure survives one round: the expanded point's neighbours are visited or just queued. */
  lemma NextClosed(board: Board, my: Pos, queue: seq<Pos>, labels: seq<nat>, vlab: map<Pos, nat>, next: seq<Pos>)
    requires Covers(board)
    requires |queue| == |labels| && queue != []
    requires Closed(board, my, queue, labels, vlab)
    requires forall v :: v in vlab ==> vlab[v] <= labels[0]
    requires Scan(board, my, queue[0], vlab.Keys, queue[1..], 0) == Continue(next)
    ensures |next| == |NextLabels(labels, |next| - |queue[1..]|)|
    ensures Closed(board, my, next, NextLabels(labels, |next| - |queue[1..]|), NextVisited(vlab, queue[0], labels[0]))
  {
    var labels' := NextLabels(labels, |next| - |queue[1..]|);
    var vlab' := NextVisited(vlab, queue[0], labels[0]);
    forall v, n | v in vlab' && Adjacent(v, n)
      ensures n != my
      ensures Passable(board, n) ==>
                || (n in vlab' && vlab'[n] <= vlab'[v] + 1)
                || (exists j :: 0 <= j < |next| && next[j] == n && labels'[j] <= vlab'[v] + 1)
    {
      if v in vlab {
        ClosedAtOldVisited(board, my, queue, labels, vlab, next, v, n);
      } else {
        ClosedAtExpanded(board, my, queue, labels, vlab, next, n);
      }
    }
  }

  /** A neighbour of a point visited before the round is still covered after it. */
  lemma ClosedAtOldVisited(board: Board, my: Pos, queue: seq<Pos>, labels: seq<nat>, vlab: map<Pos, nat>,
                           next: seq<Pos>, v: Pos, n: Pos)
    requires Covers(board)
    requires |queue| == |labels| && queue != []
    requires Closed(board, my, queue, labels, vlab)
    requires forall v :: v in vlab ==> vlab[v] <= labels[0]
    requires queue[1..] <= next
    requires v in vlab && Adjacent(v, n)
    ensures n != my
    ensures var labels', vlab' := NextLabels(labels, |next| - |queue[1..]|), NextVisited(vlab, queue[0], labels[0]);
      Passable(board, n) ==>
        || (n in vlab' && vlab'[n] <= vlab'[v] + 1)
        || (exists j :: 0 <= j < |next| && next[j] == n && labels'[j] <= vlab'[v] + 1)
  {
    var labels' := NextLabels(labels, |next| - |queue[1..]|);
    var vlab' := NextVisited(vlab, queue[0], labels[0]);
    assert vlab'[v] == vlab[v];
    if Passable(board, n) && !(n in vlab && vlab[n] <= vlab[v] + 1) {
      var j :| 0 <= j < |queue| && queue[j] == n && labels[j] <= vlab[v] + 1;
      if j == 0 {
        assert n in vlab' && vlab'[n] <= labels[0];
      } else {
        assert next[j - 1] == n && labels'[j - 1] == labels[j];
      }
    }
  }

  /** A neighbour of the point expanded in the round is visited or queued one step further out. */
  lemma ClosedAtExpanded(board: Board, my: Pos, queue: seq<Pos>, labels: seq<nat>, vlab: map<Pos, nat>,
                         next: seq<Pos>, n: Pos)
    requires Covers(board)
    requires |queue| == |labels| && queue != []
    requires queue[0] !in vlab
    requires forall v :: v in vlab ==> vlab[v] <= labels[0]
    requires queue[1..] <= next
    requires forall k :: 0 <= k < |All| ==> Step(queue[0], All[k]) != my
    requires forall k :: 0 <= k < |All| && Step(queue[0], All[k]) !in vlab && Passable(board, Step(queue[0], All[k])) ==>
      Step(queue[0], All[k]) in next[|queue[1..]|..]
    requires Adjacent(queue[0], n)
    ensures n != my
    ensures var labels', vlab' := NextLabels(labels, |next| - |queue[1..]|), NextVisited(vlab, queue[0], labels[0]);
      Passable(board, n) ==>
        || (n in vlab' && vlab'[n] <= vlab'[queue[0]] + 1)
        || (exists j :: 0 <= j < |next| && next[j] == n && labels'[j] <= vlab'[queue[0]] + 1)
  {
    var point, hops, rest := queue[0], labels[0], queue[1..];
    var labels' := NextLabels(labels, |next| - |rest|);
    var vlab' := NextVisited(vlab, point, hops);
    assert vlab'[point] == hops;
    var d := DirectionTo(point, n);
    var k := if d == Left then 0 else if d == Right then 1 else if d == Up then 2 else 3;
    assert All[k] == d && Step(point, All[k]) == n;
    if n in vlab {
      assert vlab'[n] == vlab[n] <= hops;
    } else if Passable(board, n) {
      assert n in next[|rest|..];
      var j :| 0 <= j < |next| - |rest| && next[|rest|..][j] == n;
      var m := |rest| + j;
      assert next[m] == n;
      assert labels'[m] == hops + 1;
    }
  }

  /** The conjuncts of the invariant after one round, one by one. */
  lemma StepPreservesInvParts(board: Board, my: Pos, goal: Pos, queue: seq<Pos>, labels: seq<nat>, vlab: map<Pos, nat>, next: seq<Pos>)
    requires Covers(board)
    requires SearchInv(board, my, goal, queue, labels, vlab)
    requires queue != []
    requires Scan(board, my, queue[0], vlab.Keys, queue[1..], 0) == Continue(next)
    ensures |next| == |NextLabels(labels, |next| - |queue[1..]|)|
    ensures LabelsSorted(NextLabels(labels, |next| - |queue[1..]|))
    ensures forall i :: 0 <= i < |next| ==> HasPath(board, next[i], goal, NextLabels(labels, |next| - |queue[1..]|)[i])
    ensures forall v :: v in NextVisited(vlab, queue[0], labels[0]) && |NextLabels(labels, |next| - |queue[1..]|)| > 0 ==> NextVisited(vlab, queue[0], labels[0])[v] <= NextLabels(labels, |next| - |queue[1..]|)[0]
    ensures Closed(board, my, next, NextLabels(labels, |next| - |queue[1..]|), NextVisited(vlab, queue[0], labels[0]))
    ensures NextVisited(vlab, queue[0], labels[0]) != map[] && goal in NextVisited(vlab, queue[0], labels[0]) && NextVisited(vlab, queue[0], labels[0])[goal] == 0
  {
    var labels' := NextLabels(labels, |next| - |queue[1..]|);
    var vlab' := NextVisited(vlab, queue[0], labels[0]);
    assert LabelsSorted(labels') && (labels' != [] ==> labels'[0] >= labels[0]) by {
      NextLabelsSorted(labels, |next| - |queue[1..]|);
    }
    assert forall i :: 0 <= i < |next| ==> HasPath(board, next[i], goal, labels'[i]) by {
      NextHasPaths(board, goal, queue, labels, next);
    }
    assert |next| == |labels'| && Closed(board, my, next, labels', vlab') by {
      NextClosed(board, my, queue, labels, vlab, next);
    }
    NextVisitedFacts(board, my, goal, queue, labels, vlab, labels');
  }

  /** The visited labels after one round stay below the new queue head's, and the goal keeps label 0. */
  lemma NextVisitedFacts(board: Board, my: Pos, goal: Pos, queue: seq<Pos>, labels: seq<nat>, vlab: map<Pos, nat>,
                         labels': seq<nat>)
    requires Covers(board)
    requires SearchInv(board, my, goal, queue, labels, vlab)
    requires queue != []
    requires labels' != [] ==> labels'[0] >= labels[0]
    ensures forall v :: v in NextVisited(vlab, queue[0], labels[0]) && |labels'| > 0 ==>
      NextVisited(vlab, queue[0], labels[0])[v] <= labels'[0]
    ensures var vlab' := NextVisited(vlab, queue[0], labels[0]);
      vlab' != map[] && goal in vlab' && vlab'[goal] == 0
  {
    var vlab' := NextVisited(vlab, queue[0], labels[0]);
    assert queue[0] in vlab'.Keys;
    if vlab == map[] {
      assert queue[0] == goal && labels[0] == 0;
    } else {
      assert goal in vlab;
    }
  }

  /** One round of the outer loop preserves the invariant. */
  lemma StepPreservesInv(board: Board, my: Pos, goal: Pos, queue: seq<Pos>, labels: seq<nat>, vlab: map<Pos, nat>, next: seq<Pos>)
    requires Covers(board)
    requires SearchInv(board, my, goal, queue, labels, vlab)
    requires queue != []
    requires Scan(board, my, queue[0], vlab.Keys, queue[1..], 0) == Continue(next)
    ensures SearchInv(board, my, goal, next, NextLabels(labels, |next| - |queue[1..]|),
                      NextVisited(vlab, queue[0], labels[0]))
  {
    StepPreservesInvParts(board, my, goal, queue, labels, vlab, next);
  }

  /** The search answers as `SearchOutcome` promises, from any state satisfying the invariant. */
  lemma {:induction false} SearchCorrect(board: Board, my: Pos, goal: Pos, queue: seq<Pos>, visited: set<Pos>,
                                         labels: seq<nat>, vlab: map<Pos, nat>)
    requires Covers(board)
    requires forall x :: x in queue ==> x in Region(goal)
    requires visited <= Region(goal)
    requires my != goal
    requires visited == vlab.Keys
    requires SearchInv(board, my, goal, queue, labels, vlab)
    ensures SearchOutcome(board, my, goal, Search(board, my, goal, queue, visited))
    decreases |Region(goal) - visited|, Weight(queue, visited)
  {
    if queue == [] {
      ExhaustedMeansUnreachable(board, my, goal, vlab);
    } else {
      var point := queue[0];
      match Scan(board, my, point, visited, queue[1..], 0)
      case Found(d) =>
        FoundIsShortest(board, my, goal, queue, labels, vlab, d);
      case Continue(next) =>
        ScanStaysInRegion(board, my, goal, queue, visited, next);
        SearchStepDecreases(goal, queue, visited, next);
        StepPreservesInv(board, my, goal, queue, labels, vlab, next);
        SearchCorrect(board, my, goal, next, visited + {point},
                      NextLabels(labels, |next| - |queue[1..]|), NextVisited(vlab, point, labels[0]));
    }
  }

}

=== FILE: routes.dfy ===
/**
  Routes over the board, the vocabulary in which the agent's reverse
  breadth-first search is specified.  A route from `from` to `goal` is a walk
  of orthogonal unit steps whose intermediate cells are all passable; its end
  points need not be (the agent stands on its own cell, and the goal is
  searched from without a passability test).
 */
module Routes {

  import opened Geometry
  import opened Directions
  import opened Passability

  ghost predicate IsRoute(board: Board, from: Pos, goal: Pos, route: seq<Pos>)
    requires Covers(board)
  {
    && |route| >= 1
    && route[0] == from
    && route[|route| - 1] == goal
    && (forall i :: 0 <= i < |route| - 1 ==> Adjacent(route[i], route[i + 1]))
    && (forall i :: 0 < i < |route| - 1 ==> Passable(board, route[i]))
  }

  ghost predicate Reachable(board: Board, from: Pos, goal: Pos)
    requires Covers(board)
  {
    exists route :: IsRoute(board, from, goal, route)
  }

  /** No route from `from` to `goal` has fewer than `hops` steps. */
  ghost predicate AtLeastHops(board: Board, from: Pos, goal: Pos, hops: nat)
    requires Covers(board)
  {
    forall route :: IsRoute(board, from, goal, route) ==> |route| - 1 >= hops
  }

  /**
    Moving `d` from `from` is the first step of a shortest route to `goal`:
    some route starting with that step has as few steps as any route.
   */
  ghost predicate ShortestFirstStep(board: Board, from: Pos, goal: Pos, d: Direction)
    requires Covers(board)
  {
    exists route ::
      && IsRoute(board, from, goal, route)
      && |route| >= 2
      && route[1] == Step(from, d)
      && AtLeastHops(board, from, goal, |route| - 1)
  }

  /**
    `p` reaches `goal` in exactly `hops` steps through passable cells, `p`
    itself included unless it is the goal: the cells a search from the goal
    puts on its queue.
   */
  ghost predicate HasPath(board: Board, p: Pos, goal: Pos, hops: nat)
    requires Covers(board)
  {
    exists route ::
      && IsRoute(board, p, goal, route)
      && |route| == hops + 1
      && (hops > 0 ==> Passable(board, p))
  }

  /** The goal reaches itself in no steps. */
  lemma GoalHasPath(board: Board, goal: Pos)
    requires Covers(board)
    ensures HasPath(board, goal, goal, 0)
  {
    assert IsRoute(board, goal, goal, [goal]);
  }

  /** A passable neighbour of a cell `hops` steps from the goal is `hops + 1` steps from it. */
  lemma ExtendPath(board: Board, p: Pos, q: Pos, goal: Pos, hops: nat)
    requires Covers(board)
    requires HasPath(board, p, goal, hops)
    requires Adjacent(q, p) && Passable(board, q)
    ensures HasPath(board, q, goal, hops + 1)
  {
    var route :| IsRoute(board, p, goal, route) && |route| == hops + 1 && (hops > 0 ==> Passable(board, p));
    var longer := [q] + route;
    assert forall i :: 0 < i < |longer| - 1 ==> longer[i] == route[i - 1];
    assert IsRoute(board, q, goal, longer);
  }

  /** A neighbour of a cell `hops` steps from the goal has a route of `hops + 1` steps. */
  lemma PrependStart(board: Board, from: Pos, p: Pos, goal: Pos, hops: nat) returns (route: seq<Pos>)
    requires Covers(board)
    requires HasPath(board, p, goal, hops)
    requires Adjacent(from, p)
    ensures IsRoute(board, from, goal, route) && |route| == hops + 2 && route[1] == p
  {
    var tail :| IsRoute(board, p, goal, tail) && |tail| == hops + 1 && (hops > 0 ==> Passable(board, p));
    route := [from] + tail;
    assert forall i :: 0 < i < |route| - 1 ==> route[i] == tail[i - 1];
  }

}

=== FILE: wrappers.dfy ===
/**
  An optional value.  The model uses it for the trail's `None` entry at the
  start of a path search and for the failed name lookup of `reverse` on the
  zero direction.
 */
module Wrappers {

  datatype Option<+T> = None | Some(value: T)

}
